=== FILE: README.md ===
# Session and event-routing layer of the group-planning realtime server

This project models the part of `server.js` that turns socket.io events into
validated operations: the validation gate `hasAllFieldsIn`, the process-wide
session registry `socket_user` with `isUserOnline`, the room membership a
socket gains through `socket.join`, and the eleven per-connection handlers
(`sign-up`, `login`, `add project`, `add member`, `get projects`,
`newProject`, `getProject`, `deleteProject`, `get task`, `add task`,
`disconnect`).

Layout:

- `js_values.dfy` (`JsValues`): the JavaScript values that arrive as event
  arguments, JavaScript truthiness, and reading a property of a plain object.
- `validation.dfy` (`Validation`): `hasAllFieldsIn`, the field lists
  `signupField`, `loginField`, `projectField` and the `MISSING` text.
- `protocol.dfy` (`Protocol`): collaborator outcomes (`Ok(value)` or
  `Err(Failure(message))`), the user and project records the handlers read,
  emitted envelopes (event name plus positional arguments, so a missing
  payload and an explicit `null` stay distinct), collaborator calls with their
  arguments, and a handler's effect on the registry and rooms.
- `handlers.dfy` (`Handlers`): one pure function per handler, mapping the
  event's arguments and its collaborator outcome to the envelopes emitted,
  the collaborator call made (if any) and the effect. This is the
  specification of the handlers.
- `router.dfy` (`Router`): the dispatch table from event to handler, the
  registry and room tables, the application of an effect, and the replay of a
  trace of events received on sockets, with the lemmas about whole traces.
- `server.dfy` (`Realtime`): the `Server` class holding `socketUser` and
  `rooms`. Its `Login` and `AddProject` methods update the registry and rooms
  in place, step by step, and are proved to emit, call and change exactly what
  `Handlers` says; the handlers that change no state answer with the
  `Handlers` entry.

Each collaborator (`signUp`, `login`, `addProject`, `addMember`, `getProject`,
`deleteProject`, `getTask`, `addTask`) is not called: the handler receives
how its promise settled as an extra argument, and reports the call it would
make (with its arguments) as a result. A handler that short-circuits reports
no call.

Chosen disconnect policy: as in the code, `disconnect` removes nothing. The
registry and room membership only grow (`Router.RegistryOnlyGrows`,
`Router.RoomsOnlyGrow`).

Behaviour of the code worth knowing, modelled as written:

- `disconnect` emits nothing, and `deleteProject` emits nothing when its
  collaborator rejects; in this model every other event emits exactly one
  envelope (a collaborator that resolves with something other than a record
  is outside the model, see "Left out").
- The registry key is the email of the user record `login` resolves with,
  not the email in the submitted payload.
- `get projects` reports a missing email on `"get project log"` but the
  collaborator's answer on `"shared projects"`, and passes a rejection on
  whole rather than its `message`.
- `newProject` calls the same collaborator as `add project` with no gate and
  never joins a room.
- `add member` checks only `master` and `member`; `projectID` is passed on
  unchecked.
- No handler requires the socket to have logged in first.

## Model

| member | source | states |
|---|---|---|
| JsValues.Truthy | server.js:30-31 | arrays and objects are truthy even when empty, which is why the gate needs its own empty-array test |
| JsValues.FalsyExactly | server.js:113 | a value is falsy exactly when it is `undefined`, `null`, `false`, `0`, `NaN` or `""` |
| Validation.HasAllFieldsIn | server.js:28-32 | the gate admits the payload iff every listed field is a key of the payload whose value is truthy and not an empty array |
| Validation.EmptyFieldListAdmitsAll | server.js:28-32 | an empty field list admits every payload |
| Validation.GateOfConcat | server.js:28-32 | gating on two lists in sequence is gating on each list |
| Validation.GateReadsOnlyListedFields | server.js:28-32 | payloads that agree on the listed fields get the same verdict; other keys are ignored |
| Validation.UnsatisfiedFieldRejects | server.js:28-32 | one listed field that is absent, falsy or `[]` makes the gate fail |
| Validation.SignupWithoutPasswordRejected | server.js:38-42 | a sign-up payload without `password` is rejected |
| Validation.LoginGateMeaning | server.js:44-47 | the login gate passes exactly when both `email` and `password` are satisfied |
| Protocol.SharedRooms | server.js:87 | the rooms joined at login are exactly the ids listed in `sharedIDs` |
| Handlers.SignUp | server.js:62-75 | one `"user log"` envelope; the collaborator is called with the payload iff the gate passes; a gate failure mentions "Missing required fields"; success and rejection texts; no state change |
| Handlers.Login | server.js:77-93 | one `"user log"` envelope; call iff the gate passes, with `email` and `password`; gate failure mentions the missing fields and changes nothing; success emits the user and registers the returned user's email with its shared rooms; rejection emits the message and `null` and changes nothing |
| Handlers.AddProject | server.js:96-110 | one `"add project log"` envelope; call iff the gate passes; success emits the project and joins exactly the room `project.id`; gate failure and rejection change nothing |
| Handlers.AddMember | server.js:112-125 | one `"add member log"` envelope; the collaborator is called iff `master` and `member` are both truthy, with all three arguments; otherwise "Missing owner or user" |
| Handlers.AddMemberRefusalIgnoresProject | server.js:113-116 | a refused `add member` makes no call and does not depend on `projectID` |
| Handlers.GetProjects | server.js:127-140 | a falsy email short-circuits on `"get project log"` with no call; otherwise `getProject(email)` and one `"shared projects"` envelope carrying the list or the rejection itself |
| Handlers.NewProject | server.js:144-152 | always calls `addProject`, emits one `"new-project log"` envelope and never joins a room |
| Handlers.GetProject | server.js:154-162 | calls `getProject()` with no argument; emits `"Projects"` with the list, or `"error"` with the rejection |
| Handlers.DeleteProject | server.js:164-171 | calls `deleteProject(projectId)`; one envelope on success, none on rejection |
| Handlers.GetTask | server.js:173-181 | calls `getTask(projectID)`; one `"return task log"` envelope with the tasks, or the message and `null` |
| Handlers.AddTask | server.js:183-191 | calls `addTask(taskData, projectID)`; one `"add task log"` envelope with the success or rejection text |
| Handlers.Disconnect | server.js:194-196 | no envelope, no call, no change to the registry or rooms |
| Router.Dispatch | server.js:57-197 | one envelope per event except a disconnect and a failed delete; only a gated, resolved login registers, with the returned user's email and shared rooms; only a gated, resolved `add project` joins a room, the new project's |
| Router.Join | server.js:87 | joining adds the given rooms to this socket and leaves every other socket's rooms as they were |
| Router.Apply | server.js:87-88 | performing an effect never removes a registry key or a room membership |
| Router.RegistryHoldsLastLogin | server.js:88 | after any trace, an email maps to the socket of its last successful login, or to what it mapped to before if it never logged in |
| Router.SecondLoginWins | server.js:88 | two successful logins for one email leave its single entry at the second socket |
| Router.RegistryOnlyGrows | server.js:194-196 | no sequence of events removes a registry key |
| Router.RoomsOnlyGrow | server.js:105 | no sequence of events removes a socket from a room |
| Router.OnlineAfterLogin | server.js:34-36 | after a successful login the user's email stays a key of the registry for the rest of the trace, and the socket stays in every shared room |
| Router.ApplyIdempotent | server.js:87 | performing the same join or login effect twice is performing it once |
| Router.LoginTouchesOnlyItsOwn | server.js:84-88 | a successful login upserts only its email's entry, adds the shared rooms to its own socket and changes no other socket |
| Router.NewProjectJoinsNothing | server.js:144-152 | `newProject` leaves the tables unchanged on success and on failure |
| Router.GateFailureChangesNothing | server.js:63-100 | a gate failure on `sign-up`, `login` or `add project` emits one envelope mentioning the missing fields, calls nothing and changes nothing |
| Realtime.Server.constructor | server.js:26 | the registry and the rooms start empty |
| Realtime.Server.IsUserOnline | server.js:34-36 | online exactly when the email is a key of the registry (the key `"hasOwnProperty"`, under which the code's query throws, is under "Left out"); the code defines it but never calls it, and what it reports after a login is stated by `Realtime.Server.Login` and `Router.OnlineAfterLogin` |
| Realtime.Server.Join | server.js:105 | `socket.join` grows this socket's rooms by the given ids |
| Realtime.Server.SignUp | server.js:62-75 | emits and calls what `Handlers.SignUp` says, and changes no state |
| Realtime.Server.Login | server.js:77-93 | emits and calls what `Handlers.Login` says; on success `socketUser` gains or overwrites exactly the returned email's entry, `IsUserOnline` holds for it, and the socket's rooms grow by the shared ids; otherwise nothing changes; other sockets' rooms never change |
| Realtime.Server.AddProject | server.js:96-110 | emits and calls what `Handlers.AddProject` says; the registry is untouched; on success the socket's rooms grow by exactly `project.id`, otherwise nothing changes |
| Realtime.Server.AddMember | server.js:112-125 | emits and calls what `Handlers.AddMember` says, and changes no state |
| Realtime.Server.GetProjects | server.js:127-140 | emits and calls what `Handlers.GetProjects` says, and changes no state |
| Realtime.Server.NewProject | server.js:144-152 | emits and calls what `Handlers.NewProject` says, and changes no state |
| Realtime.Server.GetProject | server.js:154-162 | emits and calls what `Handlers.GetProject` says, and changes no state |
| Realtime.Server.DeleteProject | server.js:164-171 | emits and calls what `Handlers.DeleteProject` says, and changes no state |
| Realtime.Server.GetTask | server.js:173-181 | emits and calls what `Handlers.GetTask` says, and changes no state |
| Realtime.Server.AddTask | server.js:183-191 | emits and calls what `Handlers.AddTask` says, and changes no state |
| Realtime.Server.Disconnect | server.js:194-196 | emits nothing, calls nothing and changes no state |
| Realtime.Server.Receive | server.js:57-197 | routes the event to its handler; emits, calls and changes the tables exactly as `Router.Dispatch` and `Router.Apply` say; the registry never loses a key |


## Left out

- The Express app, the HTTP server, the static file route and the port choice (server.js:15-16, 199-213): HTTP plumbing.
- The Azure Web PubSub adapter and its configuration (server.js:19-24): a foreign transport setup.
- The database collaborators (server.js:5-8): their code is not part of this model; each is an `Ok`/`Err` outcome given to the handler.
- Asynchronous scheduling: each handler is modelled as running to completion at once, so two logins racing on `socket_user` are modelled only in the order they settle.
- socket.io delivery, broadcast to rooms, the `handshake` greeting (server.js:59), the room socket.io gives every socket for its own id, and socket.io's own removal of a disconnected socket from its rooms: transport behaviour.
- `console.log` and `console.error`.
- A payload that is not a plain object (`null`, `undefined`, a string or an array): `Object.keys` throws or enumerates indices; payloads of the gated events are typed as maps.
- User and project records whose `email`, `sharedIDs` or `id` are not a string or a list of strings: JavaScript would coerce them to property keys or room names; the records are typed.
- Handlers.Login: a `login` that resolves with `null` or `undefined` is not modelled; there, reading `sharedIDs` (server.js:87) throws inside the success callback, so the socket receives "Login successful" with that value and then a second `"user log"` envelope carrying the TypeError's message (server.js:90-92), and neither the join nor the registry write happens. The user record is typed, so the model always takes the success path described in its contract.
- Handlers.Login: a `login` that resolves with another primitive (a number, a string, a boolean) is not modelled either; there nothing throws: `sharedIDs` and `email` read `undefined`, `socket.join(undefined)` joins the single room `undefined`, the registry gains the key `"undefined"`, and only the one `"user log"` envelope is sent.
- Handlers.AddProject: likewise, an `addProject` that resolves with `null` or `undefined` throws on reading `id` (server.js:105) after "Add project successful" was emitted, and the catch emits a second `"add project log"` envelope with the TypeError's message; one that resolves with another primitive reads `id` as `undefined` and joins the single room `undefined` without throwing. Neither is modelled, as the project record is typed.
- Router.Dispatch: its envelope count (one per event except `disconnect` and a failed `deleteProject`) holds only for record-valued results; the two-envelope cases above are outside the model. It also registers every email as a key, whereas in the code the email `"__proto__"` is never registered: the assignment at server.js:88 reaches the inherited `__proto__` setter, which ignores the string `socket.id`, so the prototype is unchanged and no own key is created. The same edge affects `Realtime.Server.Login` and `Router.OnlineAfterLogin`, on the lines below that start with their names.
- Realtime.Server.IsUserOnline: it always answers whether the email is a registry key, whereas in the code a login whose returned email is `"hasOwnProperty"` stores an own property of that name holding the socket id (server.js:88), which hides the inherited method, so every later `isUserOnline(x)` (server.js:35) throws a TypeError, whatever `x` is; registry keys are modelled as map keys and the query as membership.
- Realtime.Server.Login: its promise that `IsUserOnline` holds for the returned email after a successful login does not hold in the code for the email `"__proto__"`, where `isUserOnline("__proto__")` stays false (see the `Router.Dispatch` line), nor for the email `"hasOwnProperty"`, where `isUserOnline` then throws (see the `Realtime.Server.IsUserOnline` line); its other clauses, the registry upsert and the rooms, hold for `"hasOwnProperty"` too.
- Router.OnlineAfterLogin: for the same reason, its promise that the user's email is a registry key for the rest of the trace does not hold in the code for the email `"__proto__"`. For the email `"hasOwnProperty"` the key is created and stays, so its ensures holds, but `isUserOnline` no longer answers at all from then on.
- Numbers are reals with a separate `NaN`; infinities and `-0` distinctions are not modelled (both are irrelevant to truthiness except that infinities are truthy).
- Rejections that are not `Error` objects (whose `message` would be `undefined`): a rejection is modelled as its message.

=== FILE: handlers.dfy ===
/**
 * The per-connection event handlers as a table: for each inbound event, its
 * arguments and how its collaborator promise settles determine the envelopes
 * the handler emits, the collaborator call it makes (if any), and its effect on
 * the registry and rooms. The `Server` class in `Realtime` performs these steps
 * in place; these functions are its specification.
 */
module Handlers {
  import opened JsValues
  import opened Validation
  import opened Protocol

  /** The envelope a gate or presence check emits when it short-circuits. */
  function Refused(event: string, text: string): (r: Reply)
    ensures r.emits == [Emit(event, [Text(text)])]
    ensures r.call.None? && r.effect == Unchanged
  {
    Reply([Emit(event, [Text(text)])], None, Unchanged)
  }

  /** The reply of a gate failure: `prefix` followed by the missing-fields text. */
  function GateFailed(event: string, prefix: string): (r: Reply)
    ensures |r.emits| == 1 && r.emits[0].event == event && Contains(r.emits[0].Message(), Missing)
    ensures |r.emits[0].args| == 1 && r.emits[0].args[0].Text?
    ensures r.call.None? && r.effect == Unchanged
  {
    ContainsSuffix(prefix, Missing);
    Refused(event, prefix + Missing)
  }

  /** `sign-up`: gate on name, email and password, then the collaborator `signUp` with the whole payload. */
  function SignUp(userData: map<string, Value>, result: Outcome<Value>): (r: Reply)
    ensures |r.emits| == 1 && r.emits[0].event == "user log" && r.effect == Unchanged
    ensures r.call.Some? <==> HasAllFieldsIn(SignupFields, userData)
    ensures r.call.None? ==> Contains(r.emits[0].Message(), Missing)
    ensures r.call.Some? ==> r.call.value == SignUpCall(userData)
    ensures r.call.None? ==> |r.emits[0].args| == 1
    ensures r.call.Some? ==> r.emits[0].args == [Text(if result.Ok? then "Signup successful" else result.error.message)]
  {
    if !HasAllFieldsIn(SignupFields, userData) then GateFailed("user log", "Signup failed: ")
    else
      var reply := match result
        case Ok(_) => Emit("user log", [Text("Signup successful")])
        case Err(e) => Emit("user log", [Text(e.message)]);
      Reply([reply], Some(SignUpCall(userData)), Unchanged)
  }

  /**
   * `login`: gate on email and password, then the collaborator `login` with the payload's email and password;
   * on success the socket joins the user's shared rooms and is registered under the
   * email of the user record the collaborator returned.
   */
  function Login(userData: map<string, Value>, result: Outcome<User>): (r: Reply)
    ensures |r.emits| == 1 && r.emits[0].event == "user log"
    ensures r.call.Some? <==> HasAllFieldsIn(LoginFields, userData)
    ensures r.call.None? ==> Contains(r.emits[0].Message(), Missing) && |r.emits[0].args| == 1 && r.effect == Unchanged
    ensures r.call.Some? ==> r.call.value == LoginCall(Get(userData, "email"), Get(userData, "password"))
    ensures r.call.Some? && result.Ok? ==>
              r.emits[0].args == [Text("Login successful"), UserArg(result.value)]
              && r.effect == LoggedIn(result.value.email, SharedRooms(result.value))
    ensures result.Err? ==> r.effect == Unchanged
    ensures r.call.Some? && result.Err? ==> r.emits[0].args == [Text(result.error.message), NullArg]
  {
    if !HasAllFieldsIn(LoginFields, userData) then GateFailed("user log", "Login failed: ")
    else
      var call := LoginCall(Get(userData, "email"), Get(userData, "password"));
      match result
      case Ok(user) =>
        Reply([Emit("user log", [Text("Login successful"), UserArg(user)])], Some(call),
              LoggedIn(user.email, SharedRooms(user)))
      case Err(e) =>
        Reply([Emit("user log", [Text(e.message), NullArg])], Some(call), Unchanged)
  }

  /** `add project`: gate on title, createdAt and master, then the collaborator `addProject` with the payload. */
  function AddProject(projectData: map<string, Value>, result: Outcome<Project>): (r: Reply)
    ensures |r.emits| == 1 && r.emits[0].event == "add project log"
    ensures r.call.Some? <==> HasAllFieldsIn(ProjectFields, projectData)
    ensures r.call.None? ==> Contains(r.emits[0].Message(), Missing) && |r.emits[0].args| == 1 && r.effect == Unchanged
    ensures r.call.Some? ==> r.call.value == AddProjectCall(Obj(projectData))
    ensures r.call.Some? && result.Ok? ==>
              r.emits[0].args == [Text("Add project successful"), ProjectArg(result.value)]
              && r.effect == JoinedProject(result.value.id)
    ensures result.Err? ==> r.effect == Unchanged
    ensures r.call.Some? && result.Err? ==> r.emits[0].args == [Text(result.error.message), NullArg]
  {
    if !HasAllFieldsIn(ProjectFields, projectData) then GateFailed("add project log", "Update project: ")
    else
      var call := AddProjectCall(Obj(projectData));
      match result
      case Ok(project) =>
        Reply([Emit("add project log", [Text("Add project successful"), ProjectArg(project)])], Some(call),
              JoinedProject(project.id))
      case Err(e) =>
        Reply([Emit("add project log", [Text(e.message), NullArg])], Some(call), Unchanged)
  }

  /** `add member`: presence check on `master` and `member` only, then the collaborator `addMember` with all three arguments. */
  function AddMember(projectID: Value, master: Value, member: Value, result: Outcome<Value>): (r: Reply)
    ensures |r.emits| == 1 && r.emits[0].event == "add member log" && r.effect == Unchanged
    ensures r.call.Some? <==> Truthy(master) && Truthy(member)
    ensures r.call.None? ==> r.emits[0].args == [Text("Missing owner or user")]
    ensures r.call.Some? ==> r.call.value == AddMemberCall(projectID, master, member)
    ensures r.call.Some? ==> r.emits[0].args == [Text(if result.Ok? then "Project change successful" else result.error.message)]
  {
    if !Truthy(master) || !Truthy(member) then Refused("add member log", "Missing owner or user")
    else
      var reply := match result
        case Ok(_) => Emit("add member log", [Text("Project change successful")])
        case Err(e) => Emit("add member log", [Text(e.message)]);
      Reply([reply], Some(AddMemberCall(projectID, master, member)), Unchanged)
  }

  /**
   * `get projects`: presence check on `email`, then the collaborator `getProject` with it. The
   * short-circuit answers on "get project log", the collaborator's answer on
   * "shared projects"; a rejection is passed on whole, not its message.
   */
  function GetProjects(email: Value, result: Outcome<Value>): (r: Reply)
    ensures |r.emits| == 1 && r.effect == Unchanged
    ensures r.call.Some? <==> Truthy(email)
    ensures r.call.None? ==> r.emits[0] == Emit("get project log", [Text("Missing owner or user")])
    ensures r.call.Some? ==> r.call.value == GetProjectCall([email]) && r.emits[0].event == "shared projects"
    ensures r.call.Some? && result.Ok? ==> r.emits[0].args == [Text("True"), DataArg(result.value)]
    ensures r.call.Some? && result.Err? ==> r.emits[0].args == [ErrorArg(result.error), NullArg]
  {
    if !Truthy(email) then Refused("get project log", "Missing owner or user")
    else
      var reply := match result
        case Ok(shared) => Emit("shared projects", [Text("True"), DataArg(shared)])
        case Err(e) => Emit("shared projects", [ErrorArg(e), NullArg]);
      Reply([reply], Some(GetProjectCall([email])), Unchanged)
  }

  /** `newProject`: no gate, the collaborator `addProject`, and no room join whatever the outcome. */
  function NewProject(projectData: Value, result: Outcome<Project>): (r: Reply)
    ensures |r.emits| == 1 && r.emits[0].event == "new-project log"
    ensures r.call == Some(AddProjectCall(projectData)) && r.effect == Unchanged
    ensures r.emits[0].args == [Text(if result.Ok? then "Project added successfully" else result.error.message)]
  {
    var reply := match result
      case Ok(_) => Emit("new-project log", [Text("Project added successfully")])
      case Err(e) => Emit("new-project log", [Text(e.message)]);
    Reply([reply], Some(AddProjectCall(projectData)), Unchanged)
  }

  /** `getProject`: the collaborator `getProject` with no argument; the list or the error object is emitted alone. */
  function GetProject(result: Outcome<Value>): (r: Reply)
    ensures |r.emits| == 1 && r.call == Some(GetProjectCall([])) && r.effect == Unchanged
    ensures result.Ok? ==> r.emits[0] == Emit("Projects", [DataArg(result.value)])
    ensures result.Err? ==> r.emits[0] == Emit("error", [ErrorArg(result.error)])
  {
    match result
    case Ok(projects) => Reply([Emit("Projects", [DataArg(projects)])], Some(GetProjectCall([])), Unchanged)
    case Err(e) => Reply([Emit("error", [ErrorArg(e)])], Some(GetProjectCall([])), Unchanged)
  }

  /** `deleteProject`: the collaborator `deleteProject` with the id; a rejection is only logged, nothing is emitted. */
  function DeleteProject(projectId: Value, result: Outcome<Value>): (r: Reply)
    ensures r.call == Some(DeleteProjectCall(projectId)) && r.effect == Unchanged
    ensures |r.emits| == (if result.Ok? then 1 else 0)
    ensures result.Ok? ==> r.emits[0] == Emit("deleteProject", [Text("Project deleted successfully")])
  {
    var emits := if result.Ok? then [Emit("deleteProject", [Text("Project deleted successfully")])] else [];
    Reply(emits, Some(DeleteProjectCall(projectId)), Unchanged)
  }

  /** `get task`: the collaborator `getTask`, no check on the argument. */
  function GetTask(projectID: Value, result: Outcome<Value>): (r: Reply)
    ensures |r.emits| == 1 && r.emits[0].event == "return task log"
    ensures r.call == Some(GetTaskCall(projectID)) && r.effect == Unchanged
    ensures result.Ok? ==> r.emits[0].args == [Text("Get task successful"), DataArg(result.value)]
    ensures result.Err? ==> r.emits[0].args == [Text(result.error.message), NullArg]
  {
    var reply := match result
      case Ok(tasks) => Emit("return task log", [Text("Get task successful"), DataArg(tasks)])
      case Err(e) => Emit("return task log", [Text(e.message), NullArg]);
    Reply([reply], Some(GetTaskCall(projectID)), Unchanged)
  }

  /** `add task`: the collaborator `addTask`, no check on the arguments. */
  function AddTask(taskData: Value, projectID: Value, result: Outcome<Value>): (r: Reply)
    ensures |r.emits| == 1 && r.emits[0].event == "add task log"
    ensures r.call == Some(AddTaskCall(taskData, projectID)) && r.effect == Unchanged
    ensures r.emits[0].args == [Text(if result.Ok? then "Add task successful" else result.error.message)]
  {
    var reply := match result
      case Ok(_) => Emit("add task log", [Text("Add task successful")])
      case Err(e) => Emit("add task log", [Text(e.message)]);
    Reply([reply], Some(AddTaskCall(taskData, projectID)), Unchanged)
  }

  /** `disconnect`: only a console line; no emit, no call, nothing is removed. */
  function Disconnect(): (r: Reply)
    ensures r.emits == [] && r.call.None? && r.effect == Unchanged
  {
    Reply([], None, Unchanged)
  }

  /** A refused `add member` does not depend on `projectID`: only `master` and `member` are checked. */
  lemma AddMemberRefusalIgnoresProject(p: Value, q: Value, master: Value, member: Value, result: Outcome<Value>)
    requires !Truthy(master) || !Truthy(member)
    ensures AddMember(p, master, member, result) == AddMember(q, master, member, result)
    ensures AddMember(p, master, member, result).call.None?
  {
  }
}

=== FILE: js_values.dfy ===
/**
 * The JavaScript values that arrive as socket.io event arguments, and the two
 * pieces of JavaScript semantics the server relies on when it inspects them:
 * truthiness (ToBoolean) and reading a property of a plain object.
 */
module JsValues {

  /** A JSON-like JavaScript value. Numbers are reals; NaN is its own case. */
  datatype Value =
    | Undefined
    | Null
    | Bool(bit: bool)
    | Num(x: real)
    | NaN
    | Str(s: string)
    | Arr(elems: seq<Value>)
    | Obj(props: map<string, Value>)

  /** JavaScript truthiness of a value, as `if (v)` or `!v` evaluates it. */
  function Truthy(v: Value): (b: bool)
    // every array and every object is truthy, the empty array included
    ensures v.Arr? || v.Obj? ==> b
  {
    match v
    case Undefined => false
    case Null => false
    case Bool(bit) => bit
    case Num(x) => x != 0.0
    case NaN => false
    case Str(s) => s != ""
    case Arr(_) => true
    case Obj(_) => true
  }

  /** The falsy values, listed as in the ECMAScript ToBoolean table. */
  const Falsy: set<Value> := {Undefined, Null, Bool(false), Num(0.0), NaN, Str("")}

  /** Truthiness agrees with the falsy list: a value is falsy exactly when it is one of the six. */
  lemma FalsyExactly(v: Value)
    ensures !Truthy(v) <==> v in Falsy
  {
  }

  /** `obj.key` on a plain object: a missing property reads as `undefined`. */
  function Get(obj: map<string, Value>, key: string): Value
  {
    if key in obj then obj[key] else Undefined
  }
}

=== FILE: protocol.dfy ===
/**
 * The vocabulary the event handlers speak: what a collaborator (the user,
 * project and task persistence layer) is asked and answers, the envelopes a
 * handler emits on its socket, and the change a handler makes to the
 * process-wide session registry and room membership.
 */
module Protocol {
  import opened JsValues

  type SocketId = string
  type RoomId = string

  datatype Option<T> = None | Some(value: T)

  /** The rejection of a collaborator promise, an `Error` with its `message`. */
  datatype Failure = Failure(message: string)

  /** How a collaborator promise settles: resolved with a value or rejected. */
  datatype Outcome<T> = Ok(value: T) | Err(error: Failure)

  /** The user record `login` resolves with; the handlers read `email` and `sharedIDs`. */
  datatype User = User(email: string, sharedIDs: seq<RoomId>, profile: map<string, Value>)

  /** The project record `addProject` resolves with; the handlers read `id`. */
  datatype Project = Project(id: RoomId, record: map<string, Value>)

  /** One positional argument of an emit on the socket. */
  datatype Arg =
    | Text(text: string)
    | NullArg
    | UserArg(user: User)
    | ProjectArg(project: Project)
    | DataArg(data: Value)
    | ErrorArg(error: Failure)

  /** One emit on the socket: the event name and its positional arguments. */
  datatype Envelope = Emit(event: string, args: seq<Arg>)
  {
    /** The status text in the first argument, or "" when the first argument is not text. */
    function Message(): string
    {
      if |args| > 0 && args[0].Text? then args[0].text else ""
    }
  }

  /** One collaborator invocation with the arguments it is given. */
  datatype Call =
    | SignUpCall(userData: map<string, Value>)
    | LoginCall(email: Value, password: Value)
    | AddProjectCall(projectData: Value)
    | AddMemberCall(projectID: Value, master: Value, member: Value)
    | GetProjectCall(query: seq<Value>)
    | DeleteProjectCall(projectId: Value)
    | GetTaskCall(projectID: Value)
    | AddTaskCall(taskData: Value, projectID: Value)

  /** The change a handler makes to the registry and to its socket's rooms. */
  datatype Effect =
    | Unchanged
      // the join at login and the registry write that follows it (server.js:87-88)
    | LoggedIn(email: string, shared: set<RoomId>)
      // the join of the new project's room (server.js:105)
    | JoinedProject(room: RoomId)

  /** What one handler invocation does: its emits, its collaborator call, its effect. */
  datatype Reply = Reply(emits: seq<Envelope>, call: Option<Call>, effect: Effect)

  /** `sub` occurs in `s` starting at index `i`. */
  ghost predicate OccursAt(s: string, sub: string, i: int)
  {
    0 <= i <= |s| - |sub| && s[i..i + |sub|] == sub
  }

  /** `sub` occurs somewhere in `s`. */
  ghost predicate Contains(s: string, sub: string)
  {
    exists i :: OccursAt(s, sub, i)
  }

  /** A message built as a prefix followed by `sub` contains `sub`. */
  lemma ContainsSuffix(prefix: string, sub: string)
    ensures Contains(prefix + sub, sub)
  {
    var s := prefix + sub;
    assert s[|prefix|..|prefix| + |sub|] == sub;
    assert OccursAt(s, sub, |prefix|);
  }

  /** The rooms named by a user's `sharedIDs`. */
  function SharedRooms(user: User): (rooms: set<RoomId>)
    ensures forall i | 0 <= i < |user.sharedIDs| :: user.sharedIDs[i] in rooms
    ensures forall r | r in rooms :: exists i | 0 <= i < |user.sharedIDs| :: user.sharedIDs[i] == r
  {
    set r | r in user.sharedIDs
  }
}

=== FILE: router.dfy ===
/**
 * The event router and the process-wide tables it updates. `Dispatch` binds
 * each inbound event name to its handler; `Apply` performs a handler's effect
 * on the session registry (`socket_user`) and the room membership; `Run`
 * replays a trace of events, each received on some socket, so that properties
 * of the whole lifetime of the process can be stated.
 */
module Router {
  import opened JsValues
  import opened Validation
  import opened Protocol
  import Handlers

  /** One inbound event with its arguments and how its collaborator promise settles. */
  datatype Event =
    | SignUp(userData: map<string, Value>, signUpResult: Outcome<Value>)
    | Login(userData: map<string, Value>, loginResult: Outcome<User>)
    | AddProject(projectData: map<string, Value>, addProjectResult: Outcome<Project>)
    | AddMember(projectID: Value, master: Value, member: Value, addMemberResult: Outcome<Value>)
    | GetProjects(email: Value, sharedResult: Outcome<Value>)
    | NewProject(newProjectData: Value, newProjectResult: Outcome<Project>)
    | GetProject(projectsResult: Outcome<Value>)
    | DeleteProject(projectId: Value, deleteResult: Outcome<Value>)
    | GetTask(projectID: Value, tasksResult: Outcome<Value>)
    | AddTask(taskData: Value, projectID: Value, addTaskResult: Outcome<Value>)
    | Disconnect

  /** The handler the connection registered for the event's name. */
  function Dispatch(ev: Event): (r: Reply)
    // one envelope per event, except a disconnect and a failed delete, which emit nothing
    ensures |r.emits| == (if ev.Disconnect? || (ev.DeleteProject? && ev.deleteResult.Err?) then 0 else 1)
    // only a login whose gate passed and whose collaborator resolved registers anyone
    ensures r.effect.LoggedIn? <==> ev.Login? && HasAllFieldsIn(LoginFields, ev.userData) && ev.loginResult.Ok?
    ensures r.effect.LoggedIn? ==> r.effect == LoggedIn(ev.loginResult.value.email, SharedRooms(ev.loginResult.value))
    // only a successful `add project` joins a project room, and it is the new project's
    ensures r.effect.JoinedProject? <==> ev.AddProject? && HasAllFieldsIn(ProjectFields, ev.projectData) && ev.addProjectResult.Ok?
    ensures r.effect.JoinedProject? ==> r.effect.room == ev.addProjectResult.value.id
  {
    match ev
    case SignUp(userData, result) => Handlers.SignUp(userData, result)
    case Login(userData, result) => Handlers.Login(userData, result)
    case AddProject(projectData, result) => Handlers.AddProject(projectData, result)
    case AddMember(projectID, master, member, result) => Handlers.AddMember(projectID, master, member, result)
    case GetProjects(email, result) => Handlers.GetProjects(email, result)
    case NewProject(projectData, result) => Handlers.NewProject(projectData, result)
    case GetProject(result) => Handlers.GetProject(result)
    case DeleteProject(projectId, result) => Handlers.DeleteProject(projectId, result)
    case GetTask(projectID, result) => Handlers.GetTask(projectID, result)
    case AddTask(taskData, projectID, result) => Handlers.AddTask(taskData, projectID, result)
    case Disconnect => Handlers.Disconnect()
  }

  /** The session registry (email to socket id) and each socket's rooms. */
  datatype Tables = Tables(socketUser: map<string, SocketId>, rooms: map<SocketId, set<RoomId>>)

  /** The rooms a socket has joined; a socket that never joined one has none. */
  function RoomsOf(rooms: map<SocketId, set<RoomId>>, socket: SocketId): set<RoomId>
  {
    if socket in rooms then rooms[socket] else {}
  }

  /** A socket joining the rooms `ids`: its rooms grow by `ids`; no other socket's rooms change. */
  function Join(rooms: map<SocketId, set<RoomId>>, socket: SocketId, ids: set<RoomId>): (joined: map<SocketId, set<RoomId>>)
    ensures RoomsOf(joined, socket) == RoomsOf(rooms, socket) + ids
    ensures forall s | s != socket :: RoomsOf(joined, s) == RoomsOf(rooms, s)
    ensures rooms.Keys <= joined.Keys
  {
    rooms[socket := RoomsOf(rooms, socket) + ids]
  }

  /** A handler's effect, performed for the socket the event arrived on. */
  function Apply(t: Tables, socket: SocketId, effect: Effect): (u: Tables)
    ensures t.socketUser.Keys <= u.socketUser.Keys
    ensures forall s :: RoomsOf(t.rooms, s) <= RoomsOf(u.rooms, s)
  {
    match effect
    case Unchanged => t
    case LoggedIn(email, shared) => Tables(t.socketUser[email := socket], Join(t.rooms, socket, shared))
    case JoinedProject(room) => Tables(t.socketUser, Join(t.rooms, socket, {room}))
  }

  /** An event received on a socket. */
  datatype Received = Received(socket: SocketId, event: Event)

  /** The tables after every event of `trace` has been handled, in order. */
  function Run(t: Tables, trace: seq<Received>): Tables
  {
    if trace == [] then t
    else
      var last := trace[|trace| - 1];
      Apply(Run(t, trace[..|trace| - 1]), last.socket, Dispatch(last.event).effect)
  }

  /** The event logged `email` in: a login whose collaborator resolved with that user. */
  predicate LogsIn(ev: Event, email: string)
  {
    var effect := Dispatch(ev).effect;
    effect.LoggedIn? && effect.email == email
  }

  /** The socket of the last event in `trace` that logged `email` in, if any. */
  function LastLogin(trace: seq<Received>, email: string): Option<SocketId>
  {
    if trace == [] then None
    else if LogsIn(trace[|trace| - 1].event, email) then Some(trace[|trace| - 1].socket)
    else LastLogin(trace[..|trace| - 1], email)
  }

  /**
   * The registry entry for an email is the socket of its last successful login:
   * a later login overwrites an earlier one, there is one entry per email, and
   * with no login in the trace the entry is what it was before.
   */
  lemma {:induction false} RegistryHoldsLastLogin(t: Tables, trace: seq<Received>, email: string)
    ensures var reg := Run(t, trace).socketUser;
            match LastLogin(trace, email)
            case Some(socket) => email in reg && reg[email] == socket
            case None => (email in reg <==> email in t.socketUser) && (email in reg ==> reg[email] == t.socketUser[email])
  {
    if trace != [] {
      RegistryHoldsLastLogin(t, trace[..|trace| - 1], email);
    }
  }

  /** The registry only grows: no event, `disconnect` included, removes a key. */
  lemma {:induction false} RegistryOnlyGrows(t: Tables, trace: seq<Received>)
    ensures t.socketUser.Keys <= Run(t, trace).socketUser.Keys
  {
    if trace != [] {
      RegistryOnlyGrows(t, trace[..|trace| - 1]);
    }
  }

  /** Room membership only grows: no event makes a socket leave a room. */
  lemma {:induction false} RoomsOnlyGrow(t: Tables, trace: seq<Received>, socket: SocketId)
    ensures RoomsOf(t.rooms, socket) <= RoomsOf(Run(t, trace).rooms, socket)
  {
    if trace != [] {
      RoomsOnlyGrow(t, trace[..|trace| - 1], socket);
    }
  }

  /** Replaying two traces one after the other is replaying their concatenation. */
  lemma {:induction false} RunConcat(t: Tables, a: seq<Received>, b: seq<Received>)
    ensures Run(t, a + b) == Run(Run(t, a), b)
  {
    if b == [] {
      assert a + b == a;
    } else {
      assert (a + b)[..|a + b| - 1] == a + b[..|b| - 1];
      RunConcat(t, a, b[..|b| - 1]);
    }
  }

  /**
   * Once a login has succeeded, the user stays online for the rest of the trace,
   * and the socket it arrived on stays in every room the user's `sharedIDs` named.
   */
  lemma {:induction false} OnlineAfterLogin(t: Tables, trace: seq<Received>, k: nat, user: User)
    requires k < |trace|
    requires trace[k].event.Login? && trace[k].event.loginResult == Ok(user)
    requires HasAllFieldsIn(LoginFields, trace[k].event.userData)
    ensures user.email in Run(t, trace).socketUser
    ensures SharedRooms(user) <= RoomsOf(Run(t, trace).rooms, trace[k].socket)
  {
    var before, after := trace[..k + 1], trace[k + 1..];
    assert before + after == trace;
    assert before[..k] == trace[..k];
    var mid := Run(t, before);
    assert user.email in mid.socketUser;
    assert SharedRooms(user) <= RoomsOf(mid.rooms, trace[k].socket);
    RunConcat(t, before, after);
    RegistryOnlyGrows(mid, after);
    RoomsOnlyGrow(mid, after, trace[k].socket);
  }

  /** Handling the same effect twice has the effect of handling it once: joins are set union. */
  lemma ApplyIdempotent(t: Tables, socket: SocketId, effect: Effect)
    ensures Apply(Apply(t, socket, effect), socket, effect) == Apply(t, socket, effect)
  {
  }

  /** A successful login registers only its own email and touches only its own socket's rooms. */
  lemma LoginTouchesOnlyItsOwn(t: Tables, socket: SocketId, userData: map<string, Value>, user: User)
    requires HasAllFieldsIn(LoginFields, userData)
    ensures var u := Apply(t, socket, Dispatch(Login(userData, Ok(user))).effect);
            u.socketUser == t.socketUser[user.email := socket]
            && RoomsOf(u.rooms, socket) == RoomsOf(t.rooms, socket) + SharedRooms(user)
            && (forall s | s != socket :: RoomsOf(u.rooms, s) == RoomsOf(t.rooms, s))
  {
  }

  /** A `newProject` event never joins a room, whatever its collaborator answers. */
  lemma NewProjectJoinsNothing(t: Tables, socket: SocketId, projectData: Value, result: Outcome<Project>)
    ensures Apply(t, socket, Dispatch(NewProject(projectData, result)).effect) == t
  {
  }

  /**
   * A failed gate on `sign-up`, `login` or `add project` emits one envelope that
   * mentions the missing fields, calls no collaborator and changes no table.
   */
  lemma GateFailureChangesNothing(t: Tables, socket: SocketId, ev: Event)
    requires || (ev.SignUp? && !HasAllFieldsIn(SignupFields, ev.userData))
             || (ev.Login? && !HasAllFieldsIn(LoginFields, ev.userData))
             || (ev.AddProject? && !HasAllFieldsIn(ProjectFields, ev.projectData))
    ensures var r := Dispatch(ev);
            |r.emits| == 1 && Contains(r.emits[0].Message(), Missing) && |r.emits[0].args| == 1
            && r.call.None? && Apply(t, socket, r.effect) == t
  {
  }

  /** Two successful logins for one email from two sockets leave the entry pointing at the second socket. */
  lemma SecondLoginWins(t: Tables, first: Received, second: Received, email: string)
    requires LogsIn(first.event, email) && LogsIn(second.event, email)
    ensures var reg := Run(t, [first, second]).socketUser;
            email in reg && reg[email] == second.socket
  {
  }
}

=== FILE: server.dfy ===
/**
 * The server process: the `socket_user` registry and the room membership it
 * shares across connections, and the handlers each connection registers.
 * The two handlers that change shared state, `login` and `add project`, run
 * their steps in place and are proved to emit, call and change exactly what
 * the `Handlers` table says; the others change nothing and answer with the
 * table's entry.
 */
module Realtime {
  import opened JsValues
  import opened Validation
  import opened Protocol
  import Handlers
  import Router

  class Server {
    /** `socket_user`: the socket of each logged-in email. */
    var socketUser: map<string, SocketId>
    /** The rooms each socket has joined. */
    var rooms: map<SocketId, set<RoomId>>

    /** At start-up the registry is empty (server.js:26): nobody is online and no socket is in a room. */
    constructor()
      ensures socketUser == map[] && rooms == map[]
    {
      socketUser := map[];
      rooms := map[];
    }

    /** The registry and rooms as one value. */
    function State(): Router.Tables
      reads this
    {
      Router.Tables(socketUser, rooms)
    }

    /**
     * `isUserOnline`: the email has an own entry in the registry. The definition
     * is the specification (an own-key test on `socket_user`); what it reports
     * after a login is stated by `Login` and by `Router.OnlineAfterLogin`.
     */
    function IsUserOnline(email: string): (online: bool)
      reads this
      ensures online <==> email in State().socketUser
    {
      email in socketUser
    }

    /** The rooms `socket` has joined. */
    function RoomsOf(socket: SocketId): set<RoomId>
      reads this
    {
      Router.RoomsOf(rooms, socket)
    }

    /** The socket joins the rooms `ids`. */
    method Join(socket: SocketId, ids: set<RoomId>)
      modifies this`rooms
      ensures rooms == Router.Join(old(rooms), socket, ids)
    {
      var current := if socket in rooms then rooms[socket] else {};
      rooms := rooms[socket := current + ids];
    }

    /** The `sign-up` handler. */
    method SignUp(userData: map<string, Value>, result: Outcome<Value>) returns (emitted: seq<Envelope>, call: Option<Call>)
      ensures emitted == Handlers.SignUp(userData, result).emits
      ensures call == Handlers.SignUp(userData, result).call
    {
      var r := Handlers.SignUp(userData, result);
      emitted, call := r.emits, r.call;
    }

    /**
     * The `login` handler. On success the socket joins the user's shared rooms
     * and the returned user's email is mapped to this socket, replacing any
     * earlier socket for that email.
     */
    method Login(socket: SocketId, userData: map<string, Value>, result: Outcome<User>) returns (emitted: seq<Envelope>, call: Option<Call>)
      modifies this
      ensures emitted == Handlers.Login(userData, result).emits
      ensures call == Handlers.Login(userData, result).call
      ensures State() == Router.Apply(old(State()), socket, Handlers.Login(userData, result).effect)
      ensures HasAllFieldsIn(LoginFields, userData) && result.Ok? ==>
                IsUserOnline(result.value.email)
                && socketUser == old(socketUser)[result.value.email := socket]
                && RoomsOf(socket) == old(RoomsOf(socket)) + SharedRooms(result.value)
      ensures !(HasAllFieldsIn(LoginFields, userData) && result.Ok?) ==> socketUser == old(socketUser) && rooms == old(rooms)
      ensures forall s | s != socket :: RoomsOf(s) == old(RoomsOf(s))
    {
      if !HasAllFieldsIn(LoginFields, userData) {
        emitted, call := [Emit("user log", [Text("Login failed: " + Missing)])], None;
        return;
      }
      call := Some(LoginCall(Get(userData, "email"), Get(userData, "password")));
      match result {
        case Ok(user) =>
          emitted := [Emit("user log", [Text("Login successful"), UserArg(user)])];
          Join(socket, SharedRooms(user));
          socketUser := socketUser[user.email := socket];
        case Err(e) =>
          emitted := [Emit("user log", [Text(e.message), NullArg])];
      }
    }

    /** The `add project` handler. On success the socket joins the new project's room. */
    method AddProject(socket: SocketId, projectData: map<string, Value>, result: Outcome<Project>) returns (emitted: seq<Envelope>, call: Option<Call>)
      modifies this
      ensures emitted == Handlers.AddProject(projectData, result).emits
      ensures call == Handlers.AddProject(projectData, result).call
      ensures State() == Router.Apply(old(State()), socket, Handlers.AddProject(projectData, result).effect)
      ensures socketUser == old(socketUser)
      ensures HasAllFieldsIn(ProjectFields, projectData) && result.Ok? ==>
                RoomsOf(socket) == old(RoomsOf(socket)) + {result.value.id}
      ensures !(HasAllFieldsIn(ProjectFields, projectData) && result.Ok?) ==> rooms == old(rooms)
    {
      if !HasAllFieldsIn(ProjectFields, projectData) {
        emitted, call := [Emit("add project log", [Text("Update project: " + Missing)])], None;
        return;
      }
      call := Some(AddProjectCall(Obj(projectData)));
      match result {
        case Ok(project) =>
          emitted := [Emit("add project log", [Text("Add project successful"), ProjectArg(project)])];
          Join(socket, {project.id});
        case Err(e) =>
          emitted := [Emit("add project log", [Text(e.message), NullArg])];
      }
    }

    /** The `add member` handler. */
    method AddMember(projectID: Value, master: Value, member: Value, result: Outcome<Value>) returns (emitted: seq<Envelope>, call: Option<Call>)
      ensures emitted == Handlers.AddMember(projectID, master, member, result).emits
      ensures call == Handlers.AddMember(projectID, master, member, result).call
    {
      var r := Handlers.AddMember(projectID, master, member, result);
      emitted, call := r.emits, r.call;
    }

    /** The `get projects` handler. */
    method GetProjects(email: Value, result: Outcome<Value>) returns (emitted: seq<Envelope>, call: Option<Call>)
      ensures emitted == Handlers.GetProjects(email, result).emits
      ensures call == Handlers.GetProjects(email, result).call
    {
      var r := Handlers.GetProjects(email, result);
      emitted, call := r.emits, r.call;
    }

    /** The `newProject` handler: it never joins a room. */
    method NewProject(projectData: Value, result: Outcome<Project>) returns (emitted: seq<Envelope>, call: Option<Call>)
      ensures emitted == Handlers.NewProject(projectData, result).emits
      ensures call == Handlers.NewProject(projectData, result).call
    {
      var r := Handlers.NewProject(projectData, result);
      emitted, call := r.emits, r.call;
    }

    /** The `getProject` handler. */
    method GetProject(result: Outcome<Value>) returns (emitted: seq<Envelope>, call: Option<Call>)
      ensures emitted == Handlers.GetProject(result).emits
      ensures call == Handlers.GetProject(result).call
    {
      var r := Handlers.GetProject(result);
      emitted, call := r.emits, r.call;
    }

    /** The `deleteProject` handler: a rejection is caught and only logged. */
    method DeleteProject(projectId: Value, result: Outcome<Value>) returns (emitted: seq<Envelope>, call: Option<Call>)
      ensures emitted == Handlers.DeleteProject(projectId, result).emits
      ensures call == Handlers.DeleteProject(projectId, result).call
    {
      var r := Handlers.DeleteProject(projectId, result);
      emitted, call := r.emits, r.call;
    }

    /** The `get task` handler. */
    method GetTask(projectID: Value, result: Outcome<Value>) returns (emitted: seq<Envelope>, call: Option<Call>)
      ensures emitted == Handlers.GetTask(projectID, result).emits
      ensures call == Handlers.GetTask(projectID, result).call
    {
      var r := Handlers.GetTask(projectID, result);
      emitted, call := r.emits, r.call;
    }

    /** The `add task` handler. */
    method AddTask(taskData: Value, projectID: Value, result: Outcome<Value>) returns (emitted: seq<Envelope>, call: Option<Call>)
      ensures emitted == Handlers.AddTask(taskData, projectID, result).emits
      ensures call == Handlers.AddTask(taskData, projectID, result).call
    {
      var r := Handlers.AddTask(taskData, projectID, result);
      emitted, call := r.emits, r.call;
    }

    /** The `disconnect` handler: it only writes a console line. */
    method Disconnect() returns (emitted: seq<Envelope>, call: Option<Call>)
      ensures emitted == Handlers.Disconnect().emits
      ensures call == Handlers.Disconnect().call
    {
      var r := Handlers.Disconnect();
      emitted, call := r.emits, r.call;
    }

    /** Routes an event received on `socket` to the handler registered for its name. */
    method Receive(socket: SocketId, ev: Router.Event) returns (emitted: seq<Envelope>, call: Option<Call>)
      modifies this
      ensures emitted == Router.Dispatch(ev).emits
      ensures call == Router.Dispatch(ev).call
      ensures State() == Router.Apply(old(State()), socket, Router.Dispatch(ev).effect)
      ensures old(socketUser).Keys <= socketUser.Keys
    {
      match ev {
        case SignUp(userData, result) => emitted, call := SignUp(userData, result);
        case Login(userData, result) => emitted, call := Login(socket, userData, result);
        case AddProject(projectData, result) => emitted, call := AddProject(socket, projectData, result);
        case AddMember(projectID, master, member, result) => emitted, call := AddMember(projectID, master, member, result);
        case GetProjects(email, result) => emitted, call := GetProjects(email, result);
        case NewProject(projectData, result) => emitted, call := NewProject(projectData, result);
        case GetProject(result) => emitted, call := GetProject(result);
        case DeleteProject(projectId, result) => emitted, call := DeleteProject(projectId, result);
        case GetTask(projectID, result) => emitted, call := GetTask(projectID, result);
        case AddTask(taskData, projectID, result) => emitted, call := AddTask(taskData, projectID, result);
        case Disconnect => emitted, call := Disconnect();
      }
    }
  }
}

=== FILE: validation.dfy ===
/**
 * The validation gate `hasAllFieldsIn` and the required-field
 * lists of the three events that use it.
 */
module Validation {
  import opened JsValues

  /** Fields `sign-up` requires. */
  const SignupFields: seq<string> := ["name", "email", "password"]
  /** Fields `login` requires. */
  const LoginFields: seq<string> := ["email", "password"]
  /** Fields `add project` requires. */
  const ProjectFields: seq<string> := ["title", "createdAt", "master"]

  /** The text every gate failure carries. */
  const Missing: string := "Missing required fields"

  /**
   * Reference reading of one requirement: the field is present, its value is
   * truthy, and if the value is an array it has at least one element.
   */
  predicate FieldSatisfied(obj: map<string, Value>, field: string)
  {
    field in obj && Truthy(obj[field]) && (obj[field].Arr? ==> obj[field].elems != [])
  }

  /**
   * The gate as the server runs it (server.js:28-32): each listed field, from
   * left to right, must be an own key of the payload whose value is truthy and
   * is not an empty array; the first field that fails stops the scan.
   */
  function HasAllFieldsIn(fields: seq<string>, obj: map<string, Value>): (ok: bool)
    ensures ok <==> forall i | 0 <= i < |fields| :: FieldSatisfied(obj, fields[i])
  {
    if fields == [] then true
    else
      var item := fields[0];
      var present := item in obj.Keys;
      present && Truthy(obj[item]) && !(obj[item].Arr? && |obj[item].elems| == 0)
      && HasAllFieldsIn(fields[1..], obj)
  }

  /** No requirement, no rejection: the empty field list admits every payload. */
  lemma EmptyFieldListAdmitsAll(obj: map<string, Value>)
    ensures HasAllFieldsIn([], obj)
  {
  }

  /** A gate over a concatenation of field lists is the conjunction of the two gates. */
  lemma {:induction false} GateOfConcat(a: seq<string>, b: seq<string>, obj: map<string, Value>)
    ensures HasAllFieldsIn(a + b, obj) <==> HasAllFieldsIn(a, obj) && HasAllFieldsIn(b, obj)
  {
    if a == [] {
      assert a + b == b;
    } else {
      assert (a + b)[1..] == a[1..] + b;
      GateOfConcat(a[1..], b, obj);
    }
  }

  /** The gate looks only at the listed fields: payloads that agree on them are judged alike. */
  lemma GateReadsOnlyListedFields(fields: seq<string>, obj: map<string, Value>, other: map<string, Value>)
    requires forall i | 0 <= i < |fields| :: (fields[i] in obj <==> fields[i] in other)
    requires forall i | 0 <= i < |fields| && fields[i] in obj :: obj[fields[i]] == other[fields[i]]
    ensures HasAllFieldsIn(fields, obj) == HasAllFieldsIn(fields, other)
  {
  }

  /** A listed field that is absent, falsy or an empty array makes the gate fail. */
  lemma UnsatisfiedFieldRejects(fields: seq<string>, obj: map<string, Value>, k: nat)
    requires k < |fields|
    requires fields[k] !in obj || !Truthy(obj[fields[k]]) || obj[fields[k]] == Arr([])
    ensures !HasAllFieldsIn(fields, obj)
  {
  }

  /** A sign-up payload without `password` never passes the sign-up gate. */
  lemma SignupWithoutPasswordRejected(obj: map<string, Value>)
    requires "password" !in obj
    ensures !HasAllFieldsIn(SignupFields, obj)
  {
    UnsatisfiedFieldRejects(SignupFields, obj, 2);
  }

  /** A login payload passes exactly when `email` and `password` both satisfy the requirement. */
  lemma LoginGateMeaning(obj: map<string, Value>)
    ensures HasAllFieldsIn(LoginFields, obj) <==> FieldSatisfied(obj, "email") && FieldSatisfied(obj, "password")
  {
  }
}
